=== FILE: README.md ===
# Retrieval core of a PDF question-answering bot, in Dafny

This project models the retrieval core of a PDF chat bot written in Python.
The external models and the network are left out. The core has these parts:

- **Chunking** (`chunking.dfy`): `split_text` cuts a text into windows of
  `chunk_size` characters. Successive windows start `chunk_size - overlap`
  characters apart.
- **Embedding guard** (`embedding.dfy`): `embed_chunks` rejects an empty
  chunk list. It builds a flat index from the encoder's output and re-wraps
  every later failure as `RuntimeError("Embedding failed: ...")`.
- **Persisted bundle** (`paths.dfy`, `index_store.dfy`): `save_faiss_index`
  and `load_faiss_index` run over an abstract file system, a map from path
  to content. The chunk list lives in a companion file, named
  `splitext(path)[0] + "_chunks.pkl"`. The POSIX `splitext` and `dirname`
  are modelled character by character.
- **Position filtering** (`positions.dfy`, `chatbot.dfy`,
  `recommender.dfy`): `search_chunks` and `QuestionRecommender.recommend`
  keep the FAISS labels `i < len(xs)` in their original order and map each
  one to its text with Python indexing, negative indices included.
- **Top-k selection** (`retriever.dfy`): `get_top_chunks` is modelled as
  `argsort()[::-1][:top_k]` over abstract ordered scores with a NaN case.
  Equal scores may come out in any order.
- **Prompt assembly** (`chatbot.dfy`): `ask_question` either returns the
  empty-context warning or builds the prompt it would send.

Python exceptions become an `Error` kind inside a `Result` (`errors.dfy`).
The Python built-ins the core relies on are in `pybuiltins.dfy`:
`str.isspace`, negative indexing, slice length, `rfind` and `str.join`.

The outcomes of the external calls are parameters of the model:

- the sentence encoder and `cosine_similarity`;
- the FAISS search, given as its label row;
- the file-system errors, given as an `IoFault`.

Some behaviours of the code are worth stating up front, because a reader
might expect otherwise:

- `load_faiss_index` does not compare the chunk count with the index size.
  A bundle whose two files disagree loads without error.
- `get_top_chunks` does not order equal scores by position. numpy's default
  argsort is not stable, so the model leaves the order of ties open.
- The position filter in `search_chunks` and `recommend` checks only the
  upper bound `i < len(xs)`. A FAISS padding label `-1` passes it (see
  Findings).
- A save writes the index and then the chunk list, in place and with no
  atomic replace. Both writes truncate their file when they open it. A
  chunk write that fails when opening its file leaves the new index beside
  the previous chunk list, and the next load pairs them
  (`IndexStore.FailedChunkWriteMixesGenerations`). A write that fails after
  opening leaves a truncated file, and the next load fails
  (`IndexStore.TruncatedChunkWriteFailsLoad`,
  `IndexStore.TruncatedIndexWriteFailsLoad`).
- `get_top_chunks` accepts a non-positive `top_k` and slices with it. `0`
  returns nothing, and `-m` returns all but the last `m`.
- A text no longer than `chunk_size` is a single chunk only when it is also
  no longer than the stride `chunk_size - overlap`.
  `Chunking.ShortTextTwoChunks` gives a counterexample. With `overlap = 0`
  the two conditions coincide.
- The defaults are `chunk_size = 500`, `overlap = 100`, `top_k = 3` for
  `search_chunks` and `get_top_chunks`, `top_k = 5` for `recommend`, and the
  bundle path `"embeddings/faiss_index.faiss"`. `main.py` uses the chunking
  defaults, `search_chunks`'s `top_k` and the bundle path; it calls neither
  `get_top_chunks` nor `recommend`.

## Model

| member | source | states |
|---|---|---|
| Chunking.SplitText | src/embed_text.py:7-21 | Empty text fails with the non-empty-string `ValueError`. Any other text is split into exactly the sliding windows, at least one, so the no-chunks error cannot happen. Every chunk is non-empty and at most `chunk_size` long. A text that fits in one window and one stride comes back as itself. |
| Chunking.ChunkIsSlice | src/embed_text.py:12-16 | Chunk `i` is `text[i*s : min(i*s + chunk_size, len(text))]`, where `s = chunk_size - overlap`, and its start lies inside the text. |
| Chunking.WindowsBounded | src/embed_text.py:13-15 | A non-empty text yields at least one window. Each window is non-empty and at most `chunk_size` long. A text no longer than both `chunk_size` and the stride is one chunk equal to the text. |
| Chunking.CountBounds | src/embed_text.py:13-16 | The loop runs exactly as often as there are strides before the end: the last window starts before `len(text)`, and the next start would not. |
| Chunking.CountCharacterised | src/embed_text.py:13-16 | The window count is the only `k` whose last start lies inside the text and whose next start does not. |
| Chunking.ChunkCountIsCeiling | src/embed_text.py:13-16 | The number of chunks is `ceil(len(text) / s)`. |
| Chunking.OffsetIsProduct | src/embed_text.py:16 | After `i` iterations, `start` equals `i * s`. |
| Chunking.SplitExample | src/embed_text.py:12-16 | `"abcdefghij"` with size 4 and overlap 1 splits into exactly `["abcd", "defg", "ghij", "j"]`. |
| Chunking.ShortTextTwoChunks | src/embed_text.py:13-16 | `"abcde"` with size 5 and overlap 2 splits into `["abcde", "de"]`, not one chunk. |
| Chunking.DefaultChunkCount | src/embed_text.py:7-16 | With the defaults 500 and 100 the stride is 400: a text of at most 800 characters gives at most two chunks, and exactly two when it is longer than 400. |
| Chunking.SplitFromCount | src/embed_text.py:13-16 | The loop run from offset `start` produces `ceil((len(text) - start) / s)` chunks, each at most `chunk_size` long, and some chunk exactly when `start < len(text)`. |
| Chunking.DropAllSuffix | src/embed_text.py:12-16 | Dropping the first `overlap` characters of every chunk cut from offset `start` onwards leaves exactly `text[start + overlap:]`. |
| Chunking.StitchRestoresText | src/embed_text.py:12-16 | With `0 <= overlap < chunk_size`, the first chunk followed by every later chunk minus its first `overlap` characters is the original text. |
| Embedding.EmbedChunks | src/embed_text.py:23-39 | An empty chunk list raises the unwrapped `ValueError`. Every later failure is a `RuntimeError` with the "Embedding failed: " prefix. The call succeeds exactly when the encoder returns a non-empty matrix. The index then holds one vector per row, with the row width as its dimension, and the chunks come back unchanged. |
| PathNames.SplitExt | src/embed_text.py:46 | `splitext` splits the path into root and extension, which concatenate back to the path. The extension is empty or starts with '.', and contains no '/' and no further '.'. |
| PathNames.ChunksPath | src/embed_text.py:46 | The companion chunk path never equals the index path. Its own `splitext` gives the index root plus "_chunks" as root and ".pkl" as extension, so the same name is recomputed identically on load. |
| PathNames.CompanionSplit | src/embed_text.py:62 | For any root, `splitext(root + "_chunks.pkl")` is `(root + "_chunks", ".pkl")`. |
| PathNames.DirName | src/embed_text.py:43 | `dirname(path)` is a prefix of the path, and it is empty exactly when the path contains no '/'. |
| IndexStore.Save | src/embed_text.py:41-53 | Every failure is an `IOError` with the saving prefix. The save succeeds exactly when the path has a directory part and no step fails. On success the index and chunks sit at the two paths and nothing else changes. A failure at directory creation changes nothing. A write that fails when opening leaves its target as it was; one that fails after opening leaves it truncated. A failed chunk write leaves the new index in place, and a failed index write leaves the chunk file as it was. Other paths never change. |
| IndexStore.SaveGuarded | src/embed_text.py:41-53 | With directory creation skipped for a bare file name, a save without faults succeeds for every path and writes exactly the bundle. |
| IndexStore.Load | src/embed_text.py:55-75 | Loading succeeds exactly when the index file exists and is an index, and the chunk file exists, is a chunk list and is non-empty. It then returns exactly the stored pair. Every failure is a `RuntimeError` with the loading prefix. A missing index, a missing chunk file and empty chunks each have their own message, checked in that order. |
| IndexStore.SaveThenLoad | src/embed_text.py:41-75 | Saving a non-empty chunk list to a path with a directory part, then loading it, returns the saved index and chunks. No count check is involved. |
| IndexStore.SaveGuardedThenLoad | src/embed_text.py:41-75 | With the directory guard, the save-then-load round trip holds for every path. |
| IndexStore.SaveBareNameFails | src/embed_text.py:41-53 | As written, saving to a path without '/' always fails with the `makedirs("")` error and leaves the store unchanged. |
| IndexStore.SaveEmptyThenLoadFails | src/embed_text.py:41-75 | An empty chunk list is saved without complaint, and loading it back fails with the empty-chunks message. |
| IndexStore.DeletedChunksFailLoad | src/embed_text.py:62-64 | Deleting the companion file of a saved bundle makes loading fail with the chunk-file-not-found message. |
| IndexStore.FailedChunkWriteMixesGenerations | src/embed_text.py:44-48 | If the chunk file cannot be opened after the index write, the save raises. A later load then pairs the new index with the previous chunk list. |
| IndexStore.TruncatedChunkWriteFailsLoad | src/embed_text.py:46-48 | If the chunk write fails after its file was opened, the save raises and the truncated file makes a later load fail at unpickling. |
| IndexStore.TruncatedIndexWriteFailsLoad | src/embed_text.py:44 | If the index write fails after its file was opened, the save raises and a later load fails at reading the index, whatever was stored before. |
| IndexStore.DefaultPathSaves | src/embed_text.py:41-75 | With the default path `"embeddings/faiss_index.faiss"`, a fault-free save of a non-empty chunk list succeeds and loading returns it. |
| Positions.Filter | src/chatbot.py:85-86 | The kept labels are no more than the raw ones. Each kept label passes the bound check and occurs in the raw row. |
| Positions.FilterAppend | src/chatbot.py:85-86 | Filtering distributes over concatenation, so kept labels keep their original relative order. |
| Positions.FilterCounts | src/chatbot.py:85-86 | A label that passes the check is kept exactly as often as it occurs. A label that fails is never kept. |
| Positions.FilterKeepsAll | src/chatbot.py:85-86 | A row whose labels all pass comes back unchanged. |
| Positions.FilterDropsAll | src/chatbot.py:85-86 | A row whose labels all fail comes back empty. |
| Positions.IndexableIffBounded | src/chatbot.py:85 | Every label kept by `i < len(xs)` is a valid Python index exactly when no raw label is below `-len(xs)`. |
| Positions.InRangePrefix | src/chatbot.py:84-86 | On a FAISS label row for `k` results, the check `0 <= i < len(xs)` keeps exactly the first `min(k, len(xs))` labels. |
| Positions.LookupAppend | src/chatbot.py:85 | `[xs[i] for i in positions]` distributes over concatenation of the position lists: looking up `a + b` is looking up `a`, then `b`. |
| PyBuiltins.IsBlank | src/chatbot.py:77 | `not s.strip()` holds exactly when every character of `s` is whitespace, the empty string included. |
| PyBuiltins.PyIndex | src/chatbot.py:85 | For `-len(xs) <= i < len(xs)`, Python's `xs[i]` is the element at position `i` modulo `len(xs)`. |
| Positions.SliceLengthCounts | src/retriever.py:31 | The length of `xs[:k]` is the number of positions `0..n-1` that lie below the stop, where the stop is `k` for `k >= 0` and `n + k` for negative `k`. |
| Positions.CountBelow | src/retriever.py:31 | Among the positions `0..m-1`, exactly `max(0, min(m, stop))` lie below `stop`. |
| PyBuiltins.JoinSlice | src/chatbot.py:39 | In `sep.join(xs)`, each `xs[j]` occurs verbatim at its offset. |
| PyBuiltins.Join | src/chatbot.py:39 | `sep.join(xs)` of a non-empty list is as long as all the parts plus `len(xs) - 1` separators. |
| PyBuiltins.JoinSeparator | src/chatbot.py:39 | In `sep.join(xs)`, exactly `sep` lies between each element and the next, and the next element starts right after it. |
| Chatbot.SearchChunks | src/chatbot.py:73-95 | A blank query or any exception gives `([], [])`, including an `IndexError` from a label below `-len(chunks)`. Otherwise the indices are the labels `i < len(chunks)` in order, no more than the raw labels. The texts match the indices one to one under Python indexing. |
| Chatbot.SearchChunksInRange | src/chatbot.py:73-95 | With the check `0 <= i < len(chunks)`, the indices are exactly the in-range labels, and each text is `chunks[i]` for a real position `i`. |
| Chatbot.SentinelRepeatsLastChunk | src/chatbot.py:84-88 | As written, a two-chunk document searched with `top_k = 3` gets labels `[0, 1, -1]` and returns the second chunk twice. |
| Chatbot.SentinelDroppedInRange | src/chatbot.py:84-88 | With the in-range check, the same search returns each chunk once, with indices `[0, 1]`. |
| Chatbot.PaddedLabelRows | src/chatbot.py:84-88 | For a non-empty chunk list and an index holding one vector per chunk, every FAISS label row passes the as-written filter whole, and every padding label returns the last chunk. The in-range filter returns exactly the `min(k, len(chunks))` real labels. |
| Chatbot.DefaultsRepeatLastChunk | src/chatbot.py:73-88 | With the default chunk size 500, overlap 100 and `top_k = 3`, every document of 401 to 800 characters has two chunks, and the as-written search returns three texts, the last being the second chunk again. The in-range search returns the two real labels. |
| Chatbot.AskQuestion | src/chatbot.py:36-44 | An empty context gives the fixed warning and builds no request. Otherwise the prompt starts with the preamble and "Context:\n", ends with "\n\nQuestion: " plus the question, and its length is exactly the parts plus the "\n\n" separators. |
| Chatbot.PromptSeparatesChunks | src/chatbot.py:39-44 | Between each context chunk and the next, the prompt holds exactly `"\n\n"`. |
| Chatbot.PromptContainsChunks | src/chatbot.py:39-44 | Every context chunk occurs verbatim in the prompt, at its offset in the joined context. |
| Recommender.Recommend | model/recommender.py:21-27 | Blank input gives `[]`. A search exception propagates unchanged. The call succeeds exactly when no label is below `-len(questions)`, and otherwise raises `IndexError`. It returns one question per label `i < len(questions)`, in order, never more than the raw labels, each a member of `questions`. |
| Recommender.RecommendInRange | model/recommender.py:21-27 | With the check `0 <= i < len(questions)`, a non-blank search always succeeds and returns `questions[i]` for exactly the in-range labels. |
| Recommender.DefaultsPadRecommendations | model/recommender.py:21-27 | With the default `top_k = 5` and one to four questions, the as-written answer has five entries and ends with the last question; the in-range version returns one answer per question. |
| Recommender.PaddedRecommendations | model/recommender.py:26-27 | As written, a label row for `top_k` greater than the number of questions yields `top_k` answers, and every padded one is the last question. The in-range version yields only the real matches. |
| Retriever.ArgsortDescending | src/retriever.py:31 | `argsort()[::-1]` lists every position exactly once, and scores never increase along it. |
| Retriever.PrefixIsTopK | src/retriever.py:31 | Any prefix of such an ordering holds `k` distinct in-range positions in non-increasing score order. No omitted position scores higher than a chosen one. |
| Retriever.GetTopChunks | src/retriever.py:4-36 | A blank query and a count mismatch raise their unwrapped `ValueError`s. A scoring failure or a NaN raises `Exception` with the retrieval prefix. Otherwise the indices are a `len(x[:top_k])`-long prefix of a descending ordering, hence a top-k selection, and each returned chunk is `chunks[i]` for its index. |

## Left out

- Chunking.SplitText: requires `0 < chunk_size` and `overlap < chunk_size`. With a stride of zero or less the source loop never ends. A non-positive `chunk_size` with a positive stride would slice with negative Python bounds, which is not modelled.
- The `isinstance` checks of `split_text` and `embed_chunks`: the model is typed, so a non-string text or a non-list chunk argument cannot occur.
- Embedding.EmbedChunks: float32 vectors are abstracted to integer rows. The encoder (including loading the model by name) is one parameter that either returns rows or fails.
- `faiss.IndexFlatL2` construction, `add`, `search`, `write_index` and `read_index` are foreign code. Search output is an input label row. A stored index is `FaissIndex(dim, ntotal)`.
- The texts of errors raised by foreign code (FAISS, pickle, the encoder) are parameters or named constants, not the libraries' exact wording.
- IndexStore: pickled content is always a list of strings, and directories are not represented. A write interrupted after its file was opened is modelled as leaving an unreadable file, not a partially written one that might still parse. `makedirs` fails only for the empty directory name or through an injected `IoFault`.
- The `print` calls (the save confirmation, the search error reports and the debug prompt) produce console output only.
- The HTTP request in `ask_question` and its response handling are network I/O. `AskQuestion` stops at the built prompt.
- `log_chat_to_history` and `log_feedback`: file I/O, JSON and timestamps.
- `main.py` (the web endpoints). It passes the `(chunks, indices)` pair from `search_chunks` straight into `ask_question`, which is not modelled as intended behaviour.
- `src/load_pdf.py` (PDF text extraction) is not part of this model.
- `QuestionRecommender.__init__` and `_build_index` (CSV reading, encoding, index construction): the question list is a parameter.
- `get_top_chunks`'s default `top_k = 3` has no constant of its own: no caller in the repository relies on it, and `Retriever.GetTopChunks` covers every `top_k`.
- Retriever.GetTopChunks: cosine similarities are abstracted to integers plus NaN, and the score row is assumed to have one score per vector. The order of equal scores is left open.
- `search_chunks` handles `faiss.FaissException` and every other exception separately, but both return `([], [])`, so they are one case.

## Findings

| source | as written | input that shows it | evidently intended | confidence | as-written member | corrected member |
|---|---|---|---|---|---|---|
| src/embed_text.py:43 | `os.makedirs` is called with `os.path.dirname(path)` even when that is empty. | Any bare file name, e.g. `"faiss_index.faiss"`: `makedirs("")` raises `FileNotFoundError`, re-raised as `IOError`, and nothing is saved. `main.py:41` and `main.py:54` use only the default path, which has a directory part (`IndexStore.DefaultPathSaves`), so the app itself does not reach this. | Create the directory only when the path has a directory part. | high; not executed | IndexStore.SaveBareNameFails | IndexStore.SaveGuardedThenLoad |
| src/chatbot.py:85-86 | Labels are kept when `i < len(chunks)`, so FAISS's `-1` padding passes. | Two chunks, `top_k = 3`: labels `[0, 1, -1]` give the second chunk twice and index `-1`. With the defaults (size 500, overlap 100, `top_k = 3`) any uploaded document of 401 to 800 characters has two chunks, so `main.py:55` reaches this (`Chatbot.DefaultsRepeatLastChunk`). | Keep only `0 <= i < len(chunks)`. | high; not executed | Chatbot.SentinelRepeatsLastChunk | Chatbot.SentinelDroppedInRange |
| model/recommender.py:27 | Same upper-bound-only check over the question list. | Fewer than `top_k` questions: every `-1` label yields the last question again. | Keep only `0 <= i < len(questions)`. | high; not executed | Recommender.PaddedRecommendations | Recommender.RecommendInRange |

=== FILE: chatbot.dfy ===
/**
 The query side of the chat bot: `search_chunks` (blank-query guard, label
 filtering, error-to-empty fallback) and the prompt `ask_question` builds.
 The encoder and the FAISS search are external; their combined outcome, the
 raw label row or the exception they raised, is a parameter. The HTTP
 request that sends the prompt is not modelled.
 */
module Chatbot {
  import opened Errors
  import opened PyBuiltins
  import opened Faiss
  import opened Positions
  import opened Chunking

  /** `search_chunks`'s default `top_k`, the one the app uses. */
  const DefaultTopK := 3

  /** `search_chunks(model, index, chunks, query)` as written. `found` is the
      label row `index.search` produced, or the exception raised while
      encoding or searching. Every exception, including an `IndexError` from
      a label below `-len(chunks)`, is swallowed into `([], [])`. */
  function SearchChunks(chunks: seq<string>, query: string, found: Result<seq<int>>): (r: (seq<string>, seq<int>))
    ensures IsBlank(query) || found.Err? ==> r == ([], [])
    ensures |r.0| == |r.1|
    ensures Indexable(r.1, |chunks|)
    ensures forall j :: 0 <= j < |r.1| ==> r.0[j] == PyIndex(chunks, r.1[j])
    ensures found.Ok? ==> |r.1| <= |found.value|
    ensures found.Ok? ==> r.1 == [] || r.1 == KeepBelow(found.value, |chunks|)
    ensures !IsBlank(query) && found.Ok? && (forall j :: 0 <= j < |found.value| ==> -|chunks| <= found.value[j])
            ==> r.1 == KeepBelow(found.value, |chunks|)
    ensures found.Ok? && (exists j :: 0 <= j < |found.value| && found.value[j] < -|chunks|) ==> r == ([], [])
  {
    if IsBlank(query) || found.Err? then ([], [])
    else
      var kept := KeepBelow(found.value, |chunks|);
      IndexableIffBounded(found.value, |chunks|);
      if !Indexable(kept, |chunks|) then ([], [])
      else (Lookup(chunks, kept), kept)
  }

  /** `search_chunks` with the bound check `0 <= i < len(chunks)`: only real
      positions survive, so every returned index addresses its chunk directly. */
  function SearchChunksInRange(chunks: seq<string>, query: string, found: Result<seq<int>>): (r: (seq<string>, seq<int>))
    ensures IsBlank(query) || found.Err? ==> r == ([], [])
    ensures |r.0| == |r.1|
    ensures forall j :: 0 <= j < |r.1| ==> 0 <= r.1[j] < |chunks| && r.0[j] == chunks[r.1[j]]
    ensures !IsBlank(query) && found.Ok? ==> r.1 == KeepInRange(found.value, |chunks|)
  {
    if IsBlank(query) || found.Err? then ([], [])
    else
      var kept := KeepInRange(found.value, |chunks|);
      (Lookup(chunks, kept), kept)
  }

  /** As written, the -1 padding FAISS returns when `top_k` exceeds the number
      of chunks passes the filter and is read as "the last chunk": for a
      two-chunk document and `top_k = 3`, the second chunk comes back twice. */
  lemma SentinelRepeatsLastChunk(first: string, second: string, query: string)
    requires !IsBlank(query)
    ensures SearchChunks([first, second], query, Ok([0, 1, -1])) == ([first, second, second], [0, 1, -1])
  {
    var chunks := [first, second];
    var labels := [0, 1, -1];
    SentinelLabels(first, second);
    assert SearchChunks(chunks, query, Ok(labels)) == (Lookup(chunks, labels), labels);
  }

  /** With the in-range check, the same search returns each chunk once. */
  lemma SentinelDroppedInRange(first: string, second: string, query: string)
    requires !IsBlank(query)
    ensures SearchChunksInRange([first, second], query, Ok([0, 1, -1])) == ([first, second], [0, 1])
  {
    var chunks := [first, second];
    var labels := [0, 1, -1];
    SentinelLabels(first, second);
    assert SearchChunksInRange(chunks, query, Ok(labels)) == (Lookup(chunks, [0, 1]), [0, 1]);
  }

  /** What the two filters and the lookup make of the row `[0, 1, -1]`. */
  lemma SentinelLabels(first: string, second: string)
    ensures KeepBelow([0, 1, -1], 2) == [0, 1, -1] && Indexable([0, 1, -1], 2)
    ensures Lookup([first, second], [0, 1, -1]) == [first, second, second]
    ensures KeepInRange([0, 1, -1], 2) == [0, 1]
    ensures Lookup([first, second], [0, 1]) == [first, second]
  {
    SentinelBelow(first, second);
    SentinelInRange(first, second);
  }

  /** The as-written filter keeps the whole row, and `-1` reads the last chunk. */
  lemma SentinelBelow(first: string, second: string)
    ensures KeepBelow([0, 1, -1], 2) == [0, 1, -1] && Indexable([0, 1, -1], 2)
    ensures Lookup([first, second], [0, 1, -1]) == [first, second, second]
  {
    FilterKeepsAll([0, 1, -1], Below(2));
    var found := Lookup([first, second], [0, 1, -1]);
    assert found[0] == first && found[1] == second && found[2] == second;
  }

  /** The in-range filter drops the padding and keeps the two real labels. */
  lemma SentinelInRange(first: string, second: string)
    ensures KeepInRange([0, 1, -1], 2) == [0, 1]
    ensures Lookup([first, second], [0, 1]) == [first, second]
  {
    assert [0, 1, -1] == [0, 1] + [-1];
    FilterAppend([0, 1], [-1], InRange(2));
    FilterKeepsAll([0, 1], InRange(2));
    FilterDropsAll([-1], InRange(2));
    var inRange := Lookup([first, second], [0, 1]);
    assert inRange[0] == first && inRange[1] == second;
  }

  /** For any well-formed label row, the as-written filter drops nothing, so
      each padding label yields the last chunk; the in-range filter returns
      exactly the `min(k, len(chunks))` real positions. */
  lemma PaddedLabelRows(chunks: seq<string>, query: string, labels: seq<int>, k: nat)
    requires !IsBlank(query) && |chunks| > 0
    requires IsLabelRow(labels, k, |chunks|)
    ensures SearchChunks(chunks, query, Ok(labels)).1 == labels
    ensures forall j :: |chunks| <= j < k ==> SearchChunks(chunks, query, Ok(labels)).0[j] == chunks[|chunks| - 1]
    ensures SearchChunksInRange(chunks, query, Ok(labels)).1 == labels[..Min(k, |chunks|)]
  {
    var n := |chunks|;
    var m := Min(k, n);
    FilterKeepsAll(labels, Below(n));
    assert KeepBelow(labels, n) == labels;
    assert Indexable(labels, n);
    assert SearchChunks(chunks, query, Ok(labels)) == (Lookup(chunks, labels), labels);
    InRangePrefix(labels, k, n);
  }

  /** With the default chunking and the default `top_k`, any document of 401
      to 800 characters has two chunks, so the search pads its label row
      with one -1 and the as-written filter returns the second chunk twice. */
  lemma DefaultsRepeatLastChunk(text: string, chunks: seq<string>, query: string, labels: seq<int>)
    requires 400 < |text| <= 800 && IsSplit(text, DefaultChunkSize, DefaultOverlap, chunks)
    requires !IsBlank(query) && IsLabelRow(labels, DefaultTopK, |chunks|)
    ensures |chunks| == 2
    ensures |SearchChunks(chunks, query, Ok(labels)).0| == DefaultTopK
    ensures SearchChunks(chunks, query, Ok(labels)).0[2] == chunks[1]
    ensures SearchChunksInRange(chunks, query, Ok(labels)).1 == labels[..2]
  {
    DefaultChunkCount(text, chunks);
    PaddedLabelRows(chunks, query, labels, DefaultTopK);
  }

  const NoContextWarning := "\U{26A0}\U{FE0F} No context available to answer the question."
  const Preamble := "You are a helpful AI assistant. Use the following context to answer the question.\n\n"
  const ContextHeader := "Context:\n"
  const ChunkSeparator := "\n\n"
  const QuestionHeader := "\n\nQuestion: "

  /** What `ask_question` does before any network traffic: either it returns
      the fixed warning, or it has built the prompt it will send. */
  datatype Reply = Warning(text: string) | Prompt(text: string)

  /** Where the context starts inside a prompt. */
  const ContextStart: nat := |Preamble| + |ContextHeader|

  /** `ask_question(model, context_chunks, question)` up to the request. */
  function AskQuestion(contextChunks: seq<string>, question: string): (r: Reply)
    ensures r.Warning? <==> |contextChunks| == 0
    ensures r.Warning? ==> r.text == NoContextWarning
    ensures r.Prompt? ==> Preamble + ContextHeader <= r.text
    ensures r.Prompt? ==> |r.text| >= |QuestionHeader + question|
    ensures r.Prompt? ==> r.text[|r.text| - |QuestionHeader + question|..] == QuestionHeader + question
    ensures r.Prompt? ==> |r.text| == ContextStart + TotalLength(contextChunks)
                                     + (|contextChunks| - 1) * |ChunkSeparator| + |QuestionHeader + question|
  {
    if |contextChunks| == 0 then Warning(NoContextWarning)
    else
      var context := Join(ChunkSeparator, contextChunks);
      Prompt(Preamble + ContextHeader + context + QuestionHeader + question)
  }

  lemma SliceOfMiddle(a: string, b: string, c: string, d: string, i: nat, j: nat)
    requires i <= j <= |b|
    ensures (a + b + c + d)[|a| + i..|a| + j] == b[i..j]
  {
  }

  /** Every context chunk appears verbatim in the prompt, at the offset of
      its place in the `"\n\n"`-joined context. */
  lemma PromptContainsChunks(contextChunks: seq<string>, question: string, j: nat)
    requires j < |contextChunks|
    ensures var at := ContextStart + JoinOffset(ChunkSeparator, contextChunks, j);
            var text := AskQuestion(contextChunks, question).text;
            at + |contextChunks[j]| <= |text| && text[at..at + |contextChunks[j]|] == contextChunks[j]
  {
    var context := Join(ChunkSeparator, contextChunks);
    JoinSlice(ChunkSeparator, contextChunks, j);
    var o := JoinOffset(ChunkSeparator, contextChunks, j);
    SliceOfMiddle(Preamble + ContextHeader, context, QuestionHeader, question, o, o + |contextChunks[j]|);
    assert AskQuestion(contextChunks, question).text == Preamble + ContextHeader + context + QuestionHeader + question;
  }

  /** Between each context chunk and the next, the prompt holds exactly the
      `"\n\n"` separator. */
  lemma PromptSeparatesChunks(contextChunks: seq<string>, question: string, j: nat)
    requires j + 1 < |contextChunks|
    ensures var at := ContextStart + JoinOffset(ChunkSeparator, contextChunks, j) + |contextChunks[j]|;
            var text := AskQuestion(contextChunks, question).text;
            at + |ChunkSeparator| <= |text| && text[at..at + |ChunkSeparator|] == ChunkSeparator
  {
    var context := Join(ChunkSeparator, contextChunks);
    JoinSeparator(ChunkSeparator, contextChunks, j);
    var o := JoinOffset(ChunkSeparator, contextChunks, j) + |contextChunks[j]|;
    SliceOfMiddle(Preamble + ContextHeader, context, QuestionHeader, question, o, o + |ChunkSeparator|);
    assert AskQuestion(contextChunks, question).text == Preamble + ContextHeader + context + QuestionHeader + question;
  }
}

=== FILE: chunking.dfy ===
/**
 The sliding-window chunker of `split_text`: windows of `chunkSize`
 characters whose start offsets advance by `chunkSize - overlap`.
 */
module Chunking {
  import opened Errors
  import opened PyBuiltins

  /** `split_text`'s default window size and overlap, the ones the
      upload endpoint uses. */
  const DefaultChunkSize := 500
  const DefaultOverlap := 100

  const EmptyTextMessage := "Text must be a non-empty string."
  const NoChunksMessage := "Text splitting failed. No chunks created."

  /** Where window `i` starts: `i * stride`, written as repeated addition so
      that the proofs stay in linear arithmetic. */
  function Offset(i: nat, stride: nat): nat
  {
    if i == 0 then 0 else Offset(i - 1, stride) + stride
  }

  /** The number of windows `split_text` cuts from a text of length `n`. */
  function ChunkCount(n: nat, stride: nat): nat
    requires stride > 0
  {
    if n == 0 then 0 else if n <= stride then 1 else 1 + ChunkCount(n - stride, stride)
  }

  /** The `i`-th window: the (possibly shorter, final) run of up to
      `chunkSize` characters that starts at offset `i * stride`. */
  function Window(text: string, chunkSize: nat, stride: nat, i: nat): string
    requires Offset(i, stride) < |text|
  {
    text[Offset(i, stride)..Min(Offset(i, stride) + chunkSize, |text|)]
  }

  /** `chunks` are the first `|chunks|` windows of `text`. */
  ghost predicate WindowsPrefix(text: string, chunkSize: nat, stride: nat, chunks: seq<string>)
  {
    forall i {:trigger chunks[i]} :: 0 <= i < |chunks| ==>
      Offset(i, stride) < |text| && chunks[i] == Window(text, chunkSize, stride, i)
  }

  /** `chunks` is exactly the window sequence of `text`. */
  ghost predicate IsSplit(text: string, chunkSize: int, overlap: int, chunks: seq<string>)
    requires 0 < chunkSize && overlap < chunkSize
  {
    && |chunks| == ChunkCount(|text|, chunkSize - overlap)
    && WindowsPrefix(text, chunkSize, chunkSize - overlap, chunks)
  }

  /** Appending the next window to a window prefix gives a longer one. */
  lemma WindowsExtend(text: string, chunkSize: nat, stride: nat, chunks: seq<string>)
    requires WindowsPrefix(text, chunkSize, stride, chunks)
    requires Offset(|chunks|, stride) < |text|
    ensures WindowsPrefix(text, chunkSize, stride, chunks + [Window(text, chunkSize, stride, |chunks|)])
  {
    var next := chunks + [Window(text, chunkSize, stride, |chunks|)];
    forall i | 0 <= i < |next|
      ensures Offset(i, stride) < |text| && next[i] == Window(text, chunkSize, stride, i)
    {
      if i < |chunks| {
        assert next[i] == chunks[i];
      }
    }
  }

  /** After `i` strides the start offset is `i * stride`. */
  lemma {:induction false} OffsetIsProduct(i: nat, stride: nat)
    ensures Offset(i, stride) == i * stride
  {
    if i > 0 {
      OffsetIsProduct(i - 1, stride);
    }
  }

  /** `k` windows are needed exactly when `k` of them reach the end of the
      text and `k - 1` of them do not. */
  lemma {:induction false} CountCharacterised(n: nat, stride: nat, k: nat)
    requires stride > 0 && n > 0
    requires k >= 1 && Offset(k - 1, stride) < n <= Offset(k, stride)
    ensures k == ChunkCount(n, stride)
  {
    if n > stride {
      assert k >= 2;
      CountCharacterised(n - stride, stride, k - 1);
    }
  }

  /** The windows cover the text, and the last one starts inside it. */
  lemma {:induction false} CountBounds(n: nat, stride: nat)
    requires stride > 0 && n > 0
    ensures 1 <= ChunkCount(n, stride)
    ensures Offset(ChunkCount(n, stride) - 1, stride) < n <= Offset(ChunkCount(n, stride), stride)
  {
    if n > stride {
      CountBounds(n - stride, stride);
    }
  }

  /** The window count is `ceil(n / stride)`. */
  lemma ChunkCountIsCeiling(n: nat, stride: nat)
    requires stride > 0
    ensures ChunkCount(n, stride) == (n + stride - 1) / stride
  {
    if n > 0 {
      var k := ChunkCount(n, stride);
      CountBounds(n, stride);
      OffsetIsProduct(k, stride);
      OffsetIsProduct(k - 1, stride);
      CeilingOfProducts(n, stride, k);
    }
  }

  /** Integer ceiling division, characterised by the bracketing multiples. */
  lemma CeilingOfProducts(n: int, s: int, k: int)
    requires s > 0 && (k - 1) * s < n <= k * s
    ensures k == (n + s - 1) / s
  {
    var q := (n + s - 1) / s;
    var r := (n + s - 1) % s;
    assert q * s + r == n + s - 1 && 0 <= r < s;
    assert (k - 1) * s == k * s - s;
    assert (q + 1) * s == q * s + s;
    assert (q - 1) * s == q * s - s;
    MulMonotone(k, q + 1, s);
    MulMonotone(q - 1, k, s);
  }

  /** Multiplying by a positive factor preserves strict order. */
  lemma MulMonotone(a: int, b: int, s: int)
    requires s > 0 && a * s < b * s
    ensures a < b
  {
  }

  /** A non-empty text has at least one window; every window is non-empty
      and no longer than `chunkSize`; a text that fits in one window and in
      one stride is its own single chunk. */
  lemma WindowsBounded(text: string, chunkSize: int, overlap: int, chunks: seq<string>)
    requires 0 < chunkSize && overlap < chunkSize
    requires IsSplit(text, chunkSize, overlap, chunks)
    ensures |text| > 0 ==> 1 <= |chunks|
    ensures forall i :: 0 <= i < |chunks| ==> 0 < |chunks[i]| <= chunkSize
    ensures 0 < |text| <= Min(chunkSize, chunkSize - overlap) ==> chunks == [text]
  {
    if 0 < |text| <= Min(chunkSize, chunkSize - overlap) {
      assert |chunks| == 1;
      assert chunks[0] == Window(text, chunkSize, chunkSize - overlap, 0);
      assert chunks[0] == text[0..|text|] == text;
      assert chunks == [chunks[0]];
    }
  }

  /** `split_text(text, chunkSize, overlap)`: the `while start < len(text)`
      loop, preceded by the empty-text guard and followed by the defensive
      no-chunks check. */
  method SplitText(text: string, chunkSize: int, overlap: int) returns (r: Result<seq<string>>)
    requires 0 < chunkSize && overlap < chunkSize
    ensures r.Err? <==> |text| == 0
    ensures r.Err? ==> r.error == ValueError(EmptyTextMessage)
    ensures r.Ok? ==> r.value == SplitFrom(text, chunkSize, chunkSize - overlap, 0)
    ensures r.Ok? ==> IsSplit(text, chunkSize, overlap, r.value)
    ensures r.Ok? ==> 1 <= |r.value| && forall i :: 0 <= i < |r.value| ==> 0 < |r.value[i]| <= chunkSize
    ensures r.Ok? && |text| <= Min(chunkSize, chunkSize - overlap) ==> r.value == [text]
  {
    if |text| == 0 {
      return Err(ValueError(EmptyTextMessage));
    }
    var stride := chunkSize - overlap;
    var chunks: seq<string> := [];
    var start := 0;
    while start < |text|
      invariant start == Offset(|chunks|, stride)
      invariant |chunks| == 0 || Offset(|chunks| - 1, stride) < |text|
      invariant WindowsPrefix(text, chunkSize, stride, chunks)
      invariant chunks + SplitFrom(text, chunkSize, stride, start) == SplitFrom(text, chunkSize, stride, 0)
      decreases |text| - start
    {
      var end := Min(start + chunkSize, |text|);
      WindowsExtend(text, chunkSize, stride, chunks);
      chunks := chunks + [text[start..end]];
      start := start + stride;
    }
    CountCharacterised(|text|, stride, |chunks|);
    WindowsBounded(text, chunkSize, overlap, chunks);
    r := if |chunks| == 0 then Err(ValueError(NoChunksMessage)) else Ok(chunks);
  }

  /** For example, `split_text("abcdefghij", 4, 1)`: the contract of
      `SplitText` admits one result only. */
  lemma SplitExample(chunks: seq<string>)
    requires IsSplit("abcdefghij", 4, 1, chunks)
    ensures chunks == ["abcd", "defg", "ghij", "j"]
  {
    var text := "abcdefghij";
    assert ChunkCount(10, 3) == 4;
    assert Offset(1, 3) == 3 && Offset(2, 3) == 6 && Offset(3, 3) == 9;
    assert chunks[0] == text[0..4] == "abcd";
    assert chunks[1] == text[3..7] == "defg";
    assert chunks[2] == text[6..10] == "ghij";
    assert chunks[3] == text[9..10] == "j";
  }

  /** Window `i` of a window prefix, with its start written as a product. */
  lemma WindowAt(text: string, chunkSize: nat, stride: nat, chunks: seq<string>, i: nat)
    requires WindowsPrefix(text, chunkSize, stride, chunks)
    requires i < |chunks|
    ensures var start := i * stride;
            start < |text| && chunks[i] == text[start..Min(start + chunkSize, |text|)]
  {
    var chunk := chunks[i];
    assert Offset(i, stride) < |text| && chunk == Window(text, chunkSize, stride, i);
    OffsetIsProduct(i, stride);
  }

  /** Chunk `i` is the slice `text[i*s : min(i*s + chunkSize, len(text))]`
      with `s = chunkSize - overlap`, and that slice starts inside the text.
      The stride `s` is passed in, pinned by a precondition, so that the
      products `i * s` stay products of two variables rather than of a
      variable and a difference. */
  lemma ChunkIsSlice(text: string, chunkSize: int, overlap: int, s: nat, chunks: seq<string>, i: nat)
    requires 0 < chunkSize && overlap < chunkSize && s == chunkSize - overlap
    requires IsSplit(text, chunkSize, overlap, chunks)
    requires i < |chunks|
    ensures i * s < |text|
    ensures chunks[i] == text[i * s..Min(i * s + chunkSize, |text|)]
  {
    WindowAt(text, chunkSize, s, chunks, i);
  }

  /** With the default window of 500 and overlap of 100 the stride is 400, so
      a text of at most 800 characters gives at most two chunks, and exactly
      two once it is longer than 400. */
  lemma DefaultChunkCount(text: string, chunks: seq<string>)
    requires IsSplit(text, DefaultChunkSize, DefaultOverlap, chunks)
    ensures |text| <= 800 ==> |chunks| <= 2
    ensures 400 < |text| <= 800 ==> |chunks| == 2
  {
    var n := |text|;
    if 400 < n <= 800 {
      assert ChunkCount(n, 400) == 1 + ChunkCount(n - 400, 400);
      assert ChunkCount(n - 400, 400) == 1;
    }
  }

  /** A text no longer than `chunkSize` but longer than the stride is not
      one chunk: the window that starts inside it is repeated as a tail. */
  lemma ShortTextTwoChunks(chunks: seq<string>)
    requires IsSplit("abcde", 5, 2, chunks)
    ensures chunks == ["abcde", "de"]
  {
    var text := "abcde";
    assert ChunkCount(5, 3) == 2;
    assert Offset(1, 3) == 3;
    assert chunks[0] == text[0..5] == "abcde";
    assert chunks[1] == text[3..5] == "de";
  }

  /** The chunks cut from offset `start` on: the Python loop read as a
      recursion on the remaining length. */
  function SplitFrom(text: string, chunkSize: nat, stride: nat, start: nat): seq<string>
    requires stride > 0
    decreases |text| - start
  {
    if start >= |text| then []
    else [text[start..Min(start + chunkSize, |text|)]] + SplitFrom(text, chunkSize, stride, start + stride)
  }

  /** The loop run from offset `start` cuts `ceil((len(text) - start) / stride)`
      windows, each at most `chunkSize` long, and some window exactly when
      `start` lies inside the text. */
  lemma {:induction false} SplitFromCount(text: string, chunkSize: nat, stride: nat, start: nat)
    requires stride > 0
    ensures start <= |text| ==> |SplitFrom(text, chunkSize, stride, start)| == ChunkCount(|text| - start, stride)
    ensures |SplitFrom(text, chunkSize, stride, start)| > 0 <==> start < |text|
    ensures forall i :: 0 <= i < |SplitFrom(text, chunkSize, stride, start)| ==>
              |SplitFrom(text, chunkSize, stride, start)[i]| <= chunkSize
    decreases |text| - start
  {
    if start < |text| {
      SplitFromCount(text, chunkSize, stride, start + stride);
      var rest := SplitFrom(text, chunkSize, stride, start + stride);
      assert SplitFrom(text, chunkSize, stride, start) == [text[start..Min(start + chunkSize, |text|)]] + rest;
    }
  }

  /** `s[k:]` in Python: empty once `k` passes the end. */
  function Drop(s: string, k: nat): string
  {
    if k <= |s| then s[k..] else ""
  }

  /** `"".join(c[overlap:] for c in chunks)`. */
  function DropAll(chunks: seq<string>, overlap: nat): string
  {
    if |chunks| == 0 then "" else Drop(chunks[0], overlap) + DropAll(chunks[1..], overlap)
  }

  /** The first chunk followed by every later chunk with its leading
      `overlap` characters removed. */
  function Stitch(chunks: seq<string>, overlap: nat): string
  {
    if |chunks| == 0 then "" else chunks[0] + DropAll(chunks[1..], overlap)
  }

  /** The chunks after the one at `start`, minus their overlaps, spell out the
      text from the end of the overlap of the chunk at `start` on. */
  lemma {:induction false} DropAllSuffix(text: string, chunkSize: int, overlap: int, start: nat)
    requires 0 <= overlap < chunkSize
    ensures DropAll(SplitFrom(text, chunkSize, chunkSize - overlap, start), overlap)
            == text[Min(start + overlap, |text|)..]
    decreases |text| - start
  {
    var n := |text|;
    var stride := chunkSize - overlap;
    if start < n {
      var chunks := SplitFrom(text, chunkSize, stride, start);
      var window := text[start..Min(start + chunkSize, n)];
      assert chunks[0] == window;
      assert chunks[1..] == SplitFrom(text, chunkSize, stride, start + stride);
      DropAllSuffix(text, chunkSize, overlap, start + stride);
      var rest := text[Min(start + chunkSize, n)..];
      assert DropAll(chunks, overlap) == Drop(window, overlap) + rest;
      if start + overlap <= n {
        assert Drop(window, overlap) == text[start + overlap..Min(start + chunkSize, n)];
        assert text[start + overlap..Min(start + chunkSize, n)] + rest == text[start + overlap..];
      } else {
        assert Drop(window, overlap) == "";
      }
    }
  }

  /** Removing the overlaps reconstructs the text exactly. */
  lemma StitchRestoresText(text: string, chunkSize: int, overlap: int)
    requires 0 <= overlap < chunkSize
    ensures Stitch(SplitFrom(text, chunkSize, chunkSize - overlap, 0), overlap) == text
  {
    var n := |text|;
    var stride := chunkSize - overlap;
    if n > 0 {
      var chunks := SplitFrom(text, chunkSize, stride, 0);
      assert chunks[0] == text[..Min(chunkSize, n)];
      assert chunks[1..] == SplitFrom(text, chunkSize, stride, stride);
      DropAllSuffix(text, chunkSize, overlap, stride);
      assert text[..Min(chunkSize, n)] + text[Min(chunkSize, n)..] == text;
    }
  }
}

=== FILE: embedding.dfy ===
/**
 `embed_chunks`: the input guard, the construction of the flat index from
 the encoder's output, and the re-wrapping of every failure past the guard.
 The sentence encoder is external; its outcome is a parameter.
 */
module Embedding {
  import opened Errors
  import opened Faiss

  /** One embedding vector; float32 components are abstracted to integers. */
  type Vector = seq<int>

  /** What `embed_chunks` returns besides the encoder object: the index, the
      embedding matrix and the chunks it was given. */
  datatype Embedded = Embedded(index: FaissIndex, vectors: seq<Vector>, chunks: seq<string>)

  const BadChunksMessage := "Chunks must be a non-empty list of strings."
  const EmbedPrefix := "Embedding failed: "
  /** Stands for numpy's complaint when the encoder output is not a
      non-empty matrix (`embeddings.shape[1]` does not exist). */
  const NotAMatrixMessage := "embeddings do not form a two-dimensional array"

  /** The encoder output is a non-empty matrix: one row per input, all rows
      of one width. */
  predicate IsMatrix(vectors: seq<Vector>)
  {
    |vectors| > 0 && forall i :: 0 <= i < |vectors| ==> |vectors[i]| == |vectors[0]|
  }

  /** `embed_chunks(chunks)`, given what `model.encode(chunks)` produced. */
  function EmbedChunks(chunks: seq<string>, encoded: Result<seq<Vector>>): (r: Result<Embedded>)
    ensures |chunks| == 0 ==> r == Err(ValueError(BadChunksMessage))
    ensures |chunks| > 0 && encoded.Err? ==> r == Err(RuntimeError(EmbedPrefix + encoded.error.msg))
    ensures |chunks| > 0 && r.Err? ==> r.error.RuntimeError? && EmbedPrefix <= r.error.msg
    ensures r.Ok? <==> |chunks| > 0 && encoded.Ok? && IsMatrix(encoded.value)
    ensures r.Ok? ==> r.value.chunks == chunks && r.value.vectors == encoded.value
    ensures r.Ok? ==> r.value.index.ntotal == |r.value.vectors|
    ensures r.Ok? ==> forall i :: 0 <= i < |r.value.vectors| ==> |r.value.vectors[i]| == r.value.index.dim
  {
    if |chunks| == 0 then Err(ValueError(BadChunksMessage))
    else if encoded.Err? then Err(RuntimeError(EmbedPrefix + encoded.error.msg))
    else if !IsMatrix(encoded.value) then Err(RuntimeError(EmbedPrefix + NotAMatrixMessage))
    else
      var vectors := encoded.value;
      Ok(Embedded(FaissIndex(|vectors[0]|, |vectors|), vectors, chunks))
  }
}

=== FILE: errors.dfy ===
/**
 Python exceptions as values. Each constructor names the exception class the
 source raises (or that a library it calls raises), and `msg` is what `str(e)`
 yields for it, which is what the source's `f"...{e}"` re-wrapping splices in.
 */
module Errors {

  datatype Error =
    | ValueError(msg: string)
    | IndexError(msg: string)
    | RuntimeError(msg: string)
    | IOError(msg: string)
    | Exception(msg: string)

  /** A computation that either returns a value or raises an `Error`. */
  datatype Result<+T> = Ok(value: T) | Err(error: Error)

  datatype Option<+T> = None | Some(value: T)
}

=== FILE: faiss.dfy ===
/**
 What the retrieval core observes of a FAISS `IndexFlatL2`: its dimension,
 its vector count, and the shape of the label row a search returns. The
 distance computation itself belongs to the library and is not modelled.
 */
module Faiss {

  /** A flat index holding `ntotal` vectors of dimension `dim`. */
  datatype FaissIndex = FaissIndex(dim: nat, ntotal: nat)

  /** A label row as `index.search(query, k)` returns it for an index holding
      `ntotal` vectors: `k` positions, the first `min(k, ntotal)` of them
      stored positions, and the rest padded with -1. */
  ghost predicate IsLabelRow(labels: seq<int>, k: nat, ntotal: nat)
  {
    && |labels| == k
    && (forall j :: 0 <= j < |labels| && j < ntotal ==> 0 <= labels[j] < ntotal)
    && (forall j :: ntotal <= j < |labels| ==> labels[j] == -1)
  }
}

=== FILE: index_store.dfy ===
/**
 `save_faiss_index` and `load_faiss_index` over an abstract file system: a
 map from path to file content. The index goes to `path`, the pickled chunk
 list to the companion path `ChunksPath(path)`.
 */
module IndexStore {
  import opened Errors
  import opened Faiss
  import opened PathNames

  /** What one file holds: a serialized index, a pickled chunk list, or the
      truncated remains of a write that failed after opening the file, which
      neither FAISS nor pickle can read back. */
  datatype Blob = IndexBlob(index: FaissIndex) | PickleBlob(chunks: seq<string>) | Truncated

  /** The file system: path to content. Directories are not represented. */
  type Store = map<string, Blob>

  /** The three effects of a save, in the order the source performs them. */
  datatype SaveStep = MakeDirs | WriteIndex | WriteChunks

  /** An `OSError` the environment raises at one step of a save, with its
      text. `afterOpen` says whether the target file had already been opened
      for writing, and so emptied, when the error came (a full disk during
      `pickle.dump`, say) rather than at the open itself. */
  datatype IoFault = IoFault(step: SaveStep, reason: string, afterOpen: bool)

  /** The file a save writes at `step`. */
  function Target(path: string, step: SaveStep): string
  {
    if step == WriteChunks then ChunksPath(path) else path
  }

  /** The file system after a save attempt, and whether the call raised. A
      failed save keeps whatever it wrote before the failing step. */
  datatype Saved = Saved(store: Store, outcome: Result<()>)

  const SavePrefix := "Error saving FAISS index or chunks: "
  const LoadPrefix := "Failed to load FAISS index or chunks: "
  /** `str()` of the error `os.makedirs("")` raises. */
  const NoSuchDirectory := "[Errno 2] No such file or directory: ''"
  const IndexMissing := "FAISS index file not found at: "
  const ChunksMissing := "Chunks file not found."
  const ChunksEmpty := "Loaded chunks are empty."
  /** Stand for the texts of FAISS's and pickle's deserialization errors. */
  const IndexUnreadable := "not a FAISS index file"
  const ChunksUnreadable := "not a pickled chunk list"

  predicate FailsAt(fault: Option<IoFault>, step: SaveStep)
  {
    fault.Some? && fault.value.step == step
  }

  function SaveFailed(fs: Store, reason: string): Saved
  {
    Saved(fs, Err(IOError(SavePrefix + reason)))
  }

  /** The store after a write that raised: a fault after the open leaves the
      emptied target behind, one at the open leaves the old file alone. */
  function AfterFault(fs: Store, target: string, fault: IoFault): Store
  {
    if fault.afterOpen then fs[target := Truncated] else fs
  }

  /** The store holds, at `path` and its companion, exactly the bundle
      `(index, chunks)`, and every other file of `fs` unchanged. */
  ghost predicate HoldsBundle(after: Store, before: Store, path: string, index: FaissIndex, chunks: seq<string>)
  {
    && after.Keys == before.Keys + {path, ChunksPath(path)}
    && after[path] == IndexBlob(index)
    && after[ChunksPath(path)] == PickleBlob(chunks)
    && forall p :: p in before && p != path && p != ChunksPath(path) ==> after[p] == before[p]
  }

  /** `faiss.write_index` then `pickle.dump` to the companion path. */
  function WriteBundle(fs: Store, index: FaissIndex, chunks: seq<string>, path: string,
                       fault: Option<IoFault>): (r: Saved)
    ensures r.outcome.Err? ==> r.outcome.error.IOError? && SavePrefix <= r.outcome.error.msg
    ensures r.outcome.Ok? <==> !FailsAt(fault, WriteIndex) && !FailsAt(fault, WriteChunks)
    ensures r.outcome.Ok? ==> HoldsBundle(r.store, fs, path, index, chunks)
  {
    if FailsAt(fault, WriteIndex) then SaveFailed(AfterFault(fs, path, fault.value), fault.value.reason)
    else
      var withIndex := fs[path := IndexBlob(index)];
      if FailsAt(fault, WriteChunks) then SaveFailed(AfterFault(withIndex, ChunksPath(path), fault.value), fault.value.reason)
      else Saved(withIndex[ChunksPath(path) := PickleBlob(chunks)], Ok(()))
  }

  /** `save_faiss_index(index, chunks, path)` as written: it first calls
      `os.makedirs(os.path.dirname(path))`, which raises for a bare file
      name, so such a path never gets saved. */
  function Save(fs: Store, index: FaissIndex, chunks: seq<string>, path: string,
                fault: Option<IoFault>): (r: Saved)
    ensures r.outcome.Err? ==> r.outcome.error.IOError? && SavePrefix <= r.outcome.error.msg
    ensures r.outcome.Ok? <==> DirName(path) != "" && fault.None?
    ensures r.outcome.Ok? ==> HoldsBundle(r.store, fs, path, index, chunks)
    ensures DirName(path) == "" || FailsAt(fault, MakeDirs) ==> r.store == fs
    ensures r.store.Keys <= fs.Keys + {path, ChunksPath(path)}
    ensures forall p :: p in fs && p != path && p != ChunksPath(path) ==> p in r.store && r.store[p] == fs[p]
    ensures DirName(path) != "" && fault.Some? && fault.value.step != MakeDirs ==>
              var t := Target(path, fault.value.step);
              && (fault.value.afterOpen ==> t in r.store && r.store[t] == Truncated)
              && (!fault.value.afterOpen ==> (t in r.store <==> t in fs) && (t in fs ==> r.store[t] == fs[t]))
    ensures FailsAt(fault, WriteIndex) ==>
              (ChunksPath(path) in r.store <==> ChunksPath(path) in fs)
              && (ChunksPath(path) in fs ==> r.store[ChunksPath(path)] == fs[ChunksPath(path)])
    ensures DirName(path) != "" && FailsAt(fault, WriteChunks) ==> path in r.store && r.store[path] == IndexBlob(index)
  {
    if DirName(path) == "" then SaveFailed(fs, NoSuchDirectory)
    else if FailsAt(fault, MakeDirs) then SaveFailed(fs, fault.value.reason)
    else WriteBundle(fs, index, chunks, path, fault)
  }

  /** `save_faiss_index` with the directory creation skipped when the path
      has no directory part: the behaviour the function evidently intends. */
  function SaveGuarded(fs: Store, index: FaissIndex, chunks: seq<string>, path: string,
                       fault: Option<IoFault>): (r: Saved)
    ensures r.outcome.Err? ==> r.outcome.error.IOError? && SavePrefix <= r.outcome.error.msg
    ensures r.outcome.Ok? <==> fault.None? || (DirName(path) == "" && FailsAt(fault, MakeDirs))
    ensures r.outcome.Ok? ==> HoldsBundle(r.store, fs, path, index, chunks)
  {
    if DirName(path) != "" && FailsAt(fault, MakeDirs) then SaveFailed(fs, fault.value.reason)
    else WriteBundle(fs, index, chunks, path, fault)
  }

  /** The files at `path` form a bundle `load_faiss_index` accepts. */
  ghost predicate Loadable(fs: Store, path: string)
  {
    && path in fs && fs[path].IndexBlob?
    && ChunksPath(path) in fs && fs[ChunksPath(path)].PickleBlob?
    && |fs[ChunksPath(path)].chunks| > 0
  }

  function LoadFailed<T>(reason: string): Result<T>
  {
    Err(RuntimeError(LoadPrefix + reason))
  }

  /** `load_faiss_index(path)`: check and read the index, then check and
      read the chunk list, then reject an empty one; every failure surfaces
      as a `RuntimeError`. The index size is not compared with the chunk
      count. */
  function Load(fs: Store, path: string): (r: Result<(FaissIndex, seq<string>)>)
    ensures r.Ok? <==> Loadable(fs, path)
    ensures r.Ok? ==> r.value == (fs[path].index, fs[ChunksPath(path)].chunks)
    ensures r.Err? ==> r.error.RuntimeError? && LoadPrefix <= r.error.msg
    ensures path !in fs ==> r == LoadFailed(IndexMissing + path)
    ensures path in fs && fs[path].IndexBlob? && ChunksPath(path) !in fs ==> r == LoadFailed(ChunksMissing)
    ensures path in fs && fs[path].IndexBlob? && ChunksPath(path) in fs && fs[ChunksPath(path)] == PickleBlob([])
            ==> r == LoadFailed(ChunksEmpty)
  {
    if path !in fs then LoadFailed(IndexMissing + path)
    else if !fs[path].IndexBlob? then LoadFailed(IndexUnreadable)
    else
      var index := fs[path].index;
      var chunksPath := ChunksPath(path);
      if chunksPath !in fs then LoadFailed(ChunksMissing)
      else if !fs[chunksPath].PickleBlob? then LoadFailed(ChunksUnreadable)
      else if |fs[chunksPath].chunks| == 0 then LoadFailed(ChunksEmpty)
      else Ok((index, fs[chunksPath].chunks))
  }

  /** Saving to a path with a directory part and loading it back returns the
      saved index and chunks unchanged, whether or not their sizes agree. */
  lemma SaveThenLoad(fs: Store, index: FaissIndex, chunks: seq<string>, path: string)
    requires DirName(path) != ""
    requires |chunks| > 0
    ensures Save(fs, index, chunks, path, None).outcome.Ok?
    ensures Load(Save(fs, index, chunks, path, None).store, path) == Ok((index, chunks))
  {
  }

  /** With the directory guard, the round trip holds for every path. */
  lemma SaveGuardedThenLoad(fs: Store, index: FaissIndex, chunks: seq<string>, path: string)
    requires |chunks| > 0
    ensures SaveGuarded(fs, index, chunks, path, None).outcome.Ok?
    ensures Load(SaveGuarded(fs, index, chunks, path, None).store, path) == Ok((index, chunks))
  {
  }

  /** As written, a bare file name such as "faiss_index.faiss" can never be
      saved: `os.makedirs("")` raises before anything is written. */
  lemma SaveBareNameFails(fs: Store, index: FaissIndex, chunks: seq<string>, path: string, fault: Option<IoFault>)
    requires '/' !in path
    ensures Save(fs, index, chunks, path, fault) == Saved(fs, Err(IOError(SavePrefix + NoSuchDirectory)))
  {
  }

  /** Saving accepts an empty chunk list, and loading then rejects it. */
  lemma SaveEmptyThenLoadFails(fs: Store, index: FaissIndex, path: string)
    requires DirName(path) != ""
    ensures Save(fs, index, [], path, None).outcome.Ok?
    ensures Load(Save(fs, index, [], path, None).store, path) == LoadFailed(ChunksEmpty)
  {
  }

  /** Deleting the companion file of a saved bundle makes loading fail with
      the chunk-file message. */
  lemma DeletedChunksFailLoad(fs: Store, index: FaissIndex, chunks: seq<string>, path: string)
    requires DirName(path) != ""
    ensures Load(Save(fs, index, chunks, path, None).store - {ChunksPath(path)}, path) == LoadFailed(ChunksMissing)
  {
  }

  /** A save whose chunk file cannot even be opened leaves the new index
      beside the previous generation's chunk list, and loading then pairs
      the two. */
  lemma FailedChunkWriteMixesGenerations(fs: Store, index: FaissIndex, chunks: seq<string>,
                                         path: string, reason: string, previous: seq<string>)
    requires DirName(path) != ""
    requires ChunksPath(path) in fs && fs[ChunksPath(path)] == PickleBlob(previous) && |previous| > 0
    ensures Save(fs, index, chunks, path, Some(IoFault(WriteChunks, reason, false))).outcome.Err?
    ensures Load(Save(fs, index, chunks, path, Some(IoFault(WriteChunks, reason, false))).store, path)
            == Ok((index, previous))
  {
  }

  /** A chunk write that fails after opening the file (inside `pickle.dump`
      or at close) leaves a truncated chunk file, and loading then fails at
      unpickling. */
  lemma TruncatedChunkWriteFailsLoad(fs: Store, index: FaissIndex, chunks: seq<string>,
                                     path: string, reason: string)
    requires DirName(path) != ""
    ensures Save(fs, index, chunks, path, Some(IoFault(WriteChunks, reason, true))).outcome.Err?
    ensures Load(Save(fs, index, chunks, path, Some(IoFault(WriteChunks, reason, true))).store, path)
            == LoadFailed(ChunksUnreadable)
  {
  }

  /** An index write that fails after opening the file leaves an unreadable
      index, whatever was there before, and loading then fails at once. */
  lemma TruncatedIndexWriteFailsLoad(fs: Store, index: FaissIndex, chunks: seq<string>,
                                     path: string, reason: string)
    requires DirName(path) != ""
    ensures Save(fs, index, chunks, path, Some(IoFault(WriteIndex, reason, true))).outcome.Err?
    ensures Load(Save(fs, index, chunks, path, Some(IoFault(WriteIndex, reason, true))).store, path)
            == LoadFailed(IndexUnreadable)
  {
  }

  /** The path both functions use when called without one. */
  const DefaultPath := "embeddings/faiss_index.faiss"

  /** The default path has a directory part, so the as-written save works
      there and the round trip holds. */
  lemma DefaultPathSaves(fs: Store, index: FaissIndex, chunks: seq<string>)
    requires |chunks| > 0
    ensures Save(fs, index, chunks, DefaultPath, None).outcome.Ok?
    ensures Load(Save(fs, index, chunks, DefaultPath, None).store, DefaultPath) == Ok((index, chunks))
  {
    assert DefaultPath[10] == '/';
    SaveThenLoad(fs, index, chunks, DefaultPath);
  }
}

=== FILE: paths.dfy ===
/**
 The POSIX path arithmetic the index store relies on: `os.path.splitext`,
 `os.path.dirname`, and the companion chunk-file name derived from the index
 path.
 */
module PathNames {
  import opened PyBuiltins

  /** Some position in `p[from..to]` holds a character other than '.'. */
  predicate HasNonDot(p: string, from: int, to: int)
    requires 0 <= from && to <= |p|
  {
    exists j :: from <= j < to && p[j] != '.'
  }

  /** `os.path.splitext(p)`: the extension starts at the last '.' of the
      final path component, unless every character of that component before
      the dot is itself a dot (so ".bashrc" and "..." have no extension). */
  function SplitExt(p: string): (parts: (string, string))
    ensures parts.0 + parts.1 == p
    ensures parts.1 == "" || parts.1[0] == '.'
    ensures forall j :: 0 <= j < |parts.1| ==> parts.1[j] != '/'
    ensures forall j :: 0 < j < |parts.1| ==> parts.1[j] != '.'
  {
    var sep := LastIndexOf(p, '/');
    var dot := LastIndexOf(p, '.');
    if dot > sep && HasNonDot(p, sep + 1, dot) then (p[..dot], p[dot..]) else (p, "")
  }

  const ChunksSuffix := "_chunks.pkl"

  /** `os.path.splitext(path)[0] + "_chunks.pkl"`: where the chunk list of
      the index saved at `path` lives. It keeps the index path's root, adds
      "_chunks" to it and has the extension ".pkl" of its own, so it never
      coincides with the index path. */
  function ChunksPath(path: string): (q: string)
    ensures SplitExt(q) == (SplitExt(path).0 + "_chunks", ".pkl")
    ensures q != path
  {
    CompanionSplit(SplitExt(path).0);
    SplitExt(path).0 + ChunksSuffix
  }

  /** Appending "_chunks.pkl" to any root yields a path whose extension is
      ".pkl" and whose root is the old root plus "_chunks". */
  lemma CompanionSplit(root: string)
    ensures SplitExt(root + ChunksSuffix) == (root + "_chunks", ".pkl")
  {
    var q := root + ChunksSuffix;
    var n := |root|;
    assert q == root + "_chunks" + ".pkl";
    assert q[n] == '_' && q[n + 7] == '.';
    assert forall j :: n + 7 < j < |q| ==> q[j] != '.';
    assert forall j :: n <= j < |q| ==> q[j] != '/';
    var sep := LastIndexOf(q, '/');
    var dot := LastIndexOf(q, '.');
    assert dot == n + 7;
    assert sep < n;
    assert HasNonDot(q, sep + 1, dot) by {
      assert sep + 1 <= n < dot && q[n] != '.';
    }
    assert q[..dot] == root + "_chunks";
    assert q[dot..] == ".pkl";
  }

  /** `s.rstrip('/')`. */
  function RStripSlashes(s: string): (r: string)
    ensures |r| <= |s| && r == s[..|r|]
    ensures forall j :: |r| <= j < |s| ==> s[j] == '/'
    ensures |r| == 0 || r[|r| - 1] != '/'
  {
    if |s| > 0 && s[|s| - 1] == '/' then RStripSlashes(s[..|s| - 1]) else s
  }

  predicate AllSlashes(s: string) {
    forall j :: 0 <= j < |s| ==> s[j] == '/'
  }

  /** `os.path.dirname(p)`: everything up to the last '/', with trailing
      slashes removed unless the head is slashes only. The result is a
      prefix of the path, and it is empty exactly for a bare file name. */
  function DirName(p: string): (d: string)
    ensures d <= p
    ensures d == "" <==> '/' !in p
  {
    var head := p[..LastIndexOf(p, '/') + 1];
    if head != "" && !AllSlashes(head) then RStripSlashes(head) else head
  }
}

=== FILE: positions.dfy ===
/**
 Post-search position handling shared by `search_chunks` and
 `QuestionRecommender.recommend`: keep the raw FAISS labels that pass a
 bound check, in their original order, and map them to the stored texts.
 */
module Positions {
  import opened PyBuiltins
  import opened Faiss

  /** The two bound checks a label can be put through against a list of
      length `n`: the source's `i < n`, and `0 <= i < n`. */
  datatype Bound = Below(n: int) | InRange(n: int)

  predicate Passes(keep: Bound, i: int)
  {
    match keep
    case Below(n) => i < n
    case InRange(n) => 0 <= i < n
  }

  /** `[i for i in labels if <check>(i)]`. */
  function Filter(labels: seq<int>, keep: Bound): (kept: seq<int>)
    ensures |kept| <= |labels|
    ensures forall j :: 0 <= j < |kept| ==> Passes(keep, kept[j]) && kept[j] in labels
  {
    if |labels| == 0 then []
    else (if Passes(keep, labels[0]) then [labels[0]] else []) + Filter(labels[1..], keep)
  }

  /** Filtering distributes over concatenation: the kept labels keep their
      relative order. */
  lemma {:induction false} FilterAppend(a: seq<int>, b: seq<int>, keep: Bound)
    ensures Filter(a + b, keep) == Filter(a, keep) + Filter(b, keep)
  {
    if |a| > 0 {
      assert (a + b)[0] == a[0];
      assert (a + b)[1..] == a[1..] + b;
      FilterAppend(a[1..], b, keep);
    } else {
      assert a + b == b;
    }
  }

  /** Every label that passes is kept, as many times as it occurs, and no
      other label is. */
  lemma {:induction false} FilterCounts(labels: seq<int>, keep: Bound, v: int)
    ensures multiset(Filter(labels, keep))[v] == if Passes(keep, v) then multiset(labels)[v] else 0
  {
    if |labels| > 0 {
      FilterCounts(labels[1..], keep, v);
      assert labels == [labels[0]] + labels[1..];
      assert multiset(labels) == multiset([labels[0]]) + multiset(labels[1..]);
    }
  }

  /** A filter that passes every label changes nothing. */
  lemma {:induction false} FilterKeepsAll(labels: seq<int>, keep: Bound)
    requires forall j :: 0 <= j < |labels| ==> Passes(keep, labels[j])
    ensures Filter(labels, keep) == labels
  {
    if |labels| > 0 {
      FilterKeepsAll(labels[1..], keep);
    }
  }

  /** A filter that passes no label keeps nothing. */
  lemma {:induction false} FilterDropsAll(labels: seq<int>, keep: Bound)
    requires forall j :: 0 <= j < |labels| ==> !Passes(keep, labels[j])
    ensures Filter(labels, keep) == []
  {
    if |labels| > 0 {
      FilterDropsAll(labels[1..], keep);
    }
  }

  /** The source's check `i < len(xs)`: only the upper bound. */
  function KeepBelow(labels: seq<int>, n: int): seq<int>
  {
    Filter(labels, Below(n))
  }

  /** The bound check the positions evidently need: `0 <= i < len(xs)`. */
  function KeepInRange(labels: seq<int>, n: int): seq<int>
  {
    Filter(labels, InRange(n))
  }

  /** Each position can be used as a Python index into a list of length `n`
      without raising `IndexError`. */
  predicate Indexable(positions: seq<int>, n: int)
  {
    forall j :: 0 <= j < |positions| ==> -n <= positions[j] < n
  }

  /** The labels the source's check keeps can all be used as indices exactly
      when no label lies below `-n`. */
  lemma IndexableIffBounded(labels: seq<int>, n: int)
    requires 0 <= n
    ensures Indexable(KeepBelow(labels, n), n) <==> forall j :: 0 <= j < |labels| ==> -n <= labels[j]
  {
    var kept := KeepBelow(labels, n);
    if exists j :: 0 <= j < |labels| && labels[j] < -n {
      var j :| 0 <= j < |labels| && labels[j] < -n;
      FilterCounts(labels, Below(n), labels[j]);
      assert labels[j] in multiset(kept);
      var i :| 0 <= i < |kept| && kept[i] == labels[j];
      assert !(-n <= kept[i]);
    }
  }

  /** In a label row, the labels the in-range check keeps are exactly the
      real ones at its front. */
  lemma InRangePrefix(labels: seq<int>, k: nat, n: nat)
    requires IsLabelRow(labels, k, n)
    ensures KeepInRange(labels, n) == labels[..Min(k, n)]
  {
    var m := Min(k, n);
    assert labels == labels[..m] + labels[m..];
    FilterAppend(labels[..m], labels[m..], InRange(n));
    FilterKeepsAll(labels[..m], InRange(n));
    FilterDropsAll(labels[m..], InRange(n));
  }

  /** `[xs[i] for i in positions]`, with Python's negative indexing. */
  function Lookup<T>(xs: seq<T>, positions: seq<int>): (ys: seq<T>)
    requires Indexable(positions, |xs|)
    ensures |ys| == |positions|
    ensures forall j :: 0 <= j < |ys| ==> ys[j] == PyIndex(xs, positions[j])
  {
    seq(|positions|, j requires 0 <= j < |positions| => PyIndex(xs, positions[j]))
  }

  /** Looking up a concatenation of positions is the concatenation of the
      lookups: the texts come out in the order of their positions. */
  lemma LookupAppend<T>(xs: seq<T>, a: seq<int>, b: seq<int>)
    requires Indexable(a, |xs|) && Indexable(b, |xs|)
    ensures Indexable(a + b, |xs|)
    ensures Lookup(xs, a + b) == Lookup(xs, a) + Lookup(xs, b)
  {
    assert forall j :: 0 <= j < |a + b| ==> (a + b)[j] == if j < |a| then a[j] else b[j - |a|];
  }

  /** `list(range(n))`. */
  function Range(n: nat): (r: seq<int>)
    ensures |r| == n
    ensures forall j :: 0 <= j < n ==> r[j] == j
  {
    seq(n, j => j)
  }

  /** Of the positions `0 .. m-1`, those below `stop` number `stop` clipped
      to `[0, m]`. */
  lemma {:induction false} CountBelow(m: nat, stop: int)
    ensures |KeepBelow(Range(m), stop)| == Max(0, Min(m, stop))
  {
    if m > 0 {
      assert Range(m) == Range(m - 1) + [m - 1];
      FilterAppend(Range(m - 1), [m - 1], Below(stop));
      CountBelow(m - 1, stop);
      assert [m - 1][1..] == [];
    }
  }

  /** `xs[:k]` keeps exactly the positions of `xs` that lie below the stop
      bound, a negative `k` counting from the end. */
  lemma SliceLengthCounts(n: nat, k: int)
    ensures SliceLength(n, k) == |KeepBelow(Range(n), if k < 0 then n + k else k)|
  {
    CountBelow(n, if k < 0 then n + k else k);
  }
}

=== FILE: pybuiltins.dfy ===
/**
 The few pieces of Python's built-in string and list semantics the retrieval
 core relies on: `str.strip()` emptiness, negative list indexing, the length
 of a `[:k]` slice, `str.rfind` and `str.join`.
 */
module PyBuiltins {

  function Min(a: int, b: int): int { if a <= b then a else b }

  function Max(a: int, b: int): int { if a <= b then b else a }

  /** The characters for which Python's `str.isspace()` holds, which are
      exactly the ones a bare `str.strip()` removes. */
  predicate IsSpace(c: char) {
    || c == ' ' || c == '\t' || c == '\n' || c == '\r'
    || c == '\U{000B}' || c == '\U{000C}'
    || ('\U{001C}' <= c <= '\U{001F}')
    || c == '\U{0085}' || c == '\U{00A0}' || c == '\U{1680}'
    || ('\U{2000}' <= c <= '\U{200A}')
    || c == '\U{2028}' || c == '\U{2029}' || c == '\U{202F}'
    || c == '\U{205F}' || c == '\U{3000}'
  }

  /** `s.lstrip()`: the leading whitespace removed. */
  function LStrip(s: string): (r: string)
    ensures |r| <= |s| && r == s[|s| - |r|..]
    ensures forall j :: 0 <= j < |s| - |r| ==> IsSpace(s[j])
    ensures |r| == 0 || !IsSpace(r[0])
  {
    if |s| > 0 && IsSpace(s[0]) then LStrip(s[1..]) else s
  }

  /** `s.rstrip()`: the trailing whitespace removed. */
  function RStrip(s: string): (r: string)
    ensures |r| <= |s| && r == s[..|r|]
    ensures forall j :: |r| <= j < |s| ==> IsSpace(s[j])
    ensures |r| == 0 || !IsSpace(r[|r| - 1])
  {
    if |s| > 0 && IsSpace(s[|s| - 1]) then RStrip(s[..|s| - 1]) else s
  }

  /** `s.strip()`. */
  function Strip(s: string): string
  {
    RStrip(LStrip(s))
  }

  /** `not s.strip()`: stripping leaves nothing exactly when the string is
      empty or whitespace only. */
  function IsBlank(s: string): (blank: bool)
    ensures blank <==> forall j :: 0 <= j < |s| ==> IsSpace(s[j])
  {
    var l := LStrip(s);
    assert forall j :: |s| - |l| <= j < |s| ==> s[j] == l[j - (|s| - |l|)];
    Strip(s) == ""
  }

  /** Python's `xs[i]` for an index that does not raise `IndexError`:
      a negative index counts from the end. */
  function PyIndex<T>(xs: seq<T>, i: int): (x: T)
    requires -|xs| <= i < |xs|
    ensures x == xs[i % |xs|]
  {
    if i < 0 then xs[|xs| + i] else xs[i]
  }

  /** The number of elements of `xs[:k]` when `|xs| == n`: a negative bound
      counts from the end and an overlong one is clipped. */
  function SliceLength(n: nat, k: int): (len: nat)
    ensures len <= n
    ensures 0 <= k ==> len == Min(k, n)
    ensures k < 0 ==> len == Max(n + k, 0)
  {
    if 0 <= k then Min(k, n) else Max(n + k, 0)
  }

  /** `s.rfind(c)`: the last position holding `c`, or -1. */
  function LastIndexOf(s: string, c: char): (r: int)
    ensures -1 <= r < |s|
    ensures 0 <= r ==> s[r] == c
    ensures forall j :: r < j < |s| ==> s[j] != c
  {
    if |s| == 0 then -1
    else if s[|s| - 1] == c then |s| - 1
    else LastIndexOf(s[..|s| - 1], c)
  }

  /** `sep.join(xs)`: the elements' lengths plus one separator between each
      neighbouring pair. */
  function Join(sep: string, xs: seq<string>): (r: string)
    ensures |xs| > 0 ==> |r| == TotalLength(xs) + (|xs| - 1) * |sep|
  {
    if |xs| == 0 then ""
    else if |xs| == 1 then xs[0]
    else xs[0] + sep + Join(sep, xs[1..])
  }

  /** Where `xs[j]` begins inside `Join(sep, xs)`. */
  function JoinOffset(sep: string, xs: seq<string>, j: nat): nat
    requires j < |xs|
  {
    if j == 0 then 0 else |xs[0]| + |sep| + JoinOffset(sep, xs[1..], j - 1)
  }

  /** Every joined element can be found, intact, at its offset. */
  lemma {:induction false} JoinSlice(sep: string, xs: seq<string>, j: nat)
    requires j < |xs|
    ensures JoinOffset(sep, xs, j) + |xs[j]| <= |Join(sep, xs)|
    ensures Join(sep, xs)[JoinOffset(sep, xs, j)..JoinOffset(sep, xs, j) + |xs[j]|] == xs[j]
  {
    if j == 0 {
      if |xs| > 1 {
        assert Join(sep, xs) == xs[0] + (sep + Join(sep, xs[1..]));
      }
    } else {
      JoinSlice(sep, xs[1..], j - 1);
      var tail := Join(sep, xs[1..]);
      var head := xs[0] + sep;
      assert Join(sep, xs) == head + tail;
      var o := JoinOffset(sep, xs[1..], j - 1);
      assert (head + tail)[|head| + o..|head| + o + |xs[j]|] == tail[o..o + |xs[j]|];
    }
  }

  /** Between each element and the next, `Join` puts exactly `sep`. */
  lemma {:induction false} JoinSeparator(sep: string, xs: seq<string>, j: nat)
    requires j + 1 < |xs|
    ensures JoinOffset(sep, xs, j) + |xs[j]| + |sep| == JoinOffset(sep, xs, j + 1) <= |Join(sep, xs)|
    ensures Join(sep, xs)[JoinOffset(sep, xs, j) + |xs[j]|..JoinOffset(sep, xs, j + 1)] == sep
  {
    var tail := Join(sep, xs[1..]);
    var head := xs[0] + sep;
    assert Join(sep, xs) == head + tail;
    if j == 0 {
      assert JoinOffset(sep, xs[1..], 0) == 0;
      assert (head + tail)[|xs[0]|..|head|] == sep;
    } else {
      JoinSeparator(sep, xs[1..], j - 1);
      var o := JoinOffset(sep, xs[1..], j - 1) + |xs[j]|;
      assert (head + tail)[|head| + o..|head| + o + |sep|] == tail[o..o + |sep|];
    }
  }

  /** The summed lengths of the elements. */
  function TotalLength(xs: seq<string>): nat
  {
    if |xs| == 0 then 0 else |xs[0]| + TotalLength(xs[1..])
  }
}

=== FILE: recommender.dfy ===
/**
 `QuestionRecommender.recommend`: the blank-input guard and the mapping of
 FAISS labels to stored questions. Reading the CSV, encoding the questions
 and building the index happen in the constructor and are not modelled; the
 outcome of encoding the input and searching is a parameter.
 */
module Recommender {
  import opened Errors
  import opened PyBuiltins
  import opened Faiss
  import opened Positions

  /** `recommend`'s default `top_k`. */
  const DefaultTopK := 5

  /** Python's text for an out-of-range list index. */
  const ListIndexOutOfRange := "list index out of range"

  /** `recommend(user_input, top_k)` as written. `found` is the label row
      `index.search` produced, or the exception encoding or searching raised;
      nothing is caught, so that exception propagates, and so does the
      `IndexError` a label below `-len(questions)` causes. */
  function Recommend(questions: seq<string>, userInput: string, found: Result<seq<int>>): (r: Result<seq<string>>)
    ensures IsBlank(userInput) ==> r == Ok([])
    ensures !IsBlank(userInput) && found.Err? ==> r == Err(found.error)
    ensures !IsBlank(userInput) && found.Ok? ==>
              (r.Ok? <==> forall j :: 0 <= j < |found.value| ==> -|questions| <= found.value[j])
    ensures r.Err? && found.Ok? ==> r == Err(IndexError(ListIndexOutOfRange))
    ensures !IsBlank(userInput) && r.Ok? ==>
              && |r.value| == |KeepBelow(found.value, |questions|)| <= |found.value|
              && forall j :: 0 <= j < |r.value| ==> r.value[j] == PyIndex(questions, KeepBelow(found.value, |questions|)[j])
    ensures r.Ok? ==> forall j :: 0 <= j < |r.value| ==> r.value[j] in questions
  {
    if IsBlank(userInput) then Ok([])
    else if found.Err? then Err(found.error)
    else
      var kept := KeepBelow(found.value, |questions|);
      IndexableIffBounded(found.value, |questions|);
      if !Indexable(kept, |questions|) then Err(IndexError(ListIndexOutOfRange))
      else Ok(Lookup(questions, kept))
  }

  /** `recommend` with the bound check `0 <= i < len(questions)`: padding
      labels are dropped and every real label is kept once per occurrence. */
  function RecommendInRange(questions: seq<string>, userInput: string, found: Result<seq<int>>): (r: Result<seq<string>>)
    ensures IsBlank(userInput) ==> r == Ok([])
    ensures !IsBlank(userInput) && found.Err? ==> r == Err(found.error)
    ensures !IsBlank(userInput) && found.Ok? ==> r.Ok?
    ensures !IsBlank(userInput) && r.Ok? ==>
              && |r.value| == |KeepInRange(found.value, |questions|)| <= |found.value|
              && forall j :: 0 <= j < |r.value| ==> r.value[j] == questions[KeepInRange(found.value, |questions|)[j]]
  {
    if IsBlank(userInput) then Ok([])
    else if found.Err? then Err(found.error)
    else Ok(Lookup(questions, KeepInRange(found.value, |questions|)))
  }

  /** As written, when `top_k` exceeds the number of questions every padding
      label -1 is read as "the last question", so the answer has `top_k`
      entries and repeats the last question; the in-range version returns
      only the real matches. */
  lemma PaddedRecommendations(questions: seq<string>, userInput: string, labels: seq<int>, k: nat)
    requires !IsBlank(userInput) && |questions| > 0
    requires IsLabelRow(labels, k, |questions|)
    ensures Recommend(questions, userInput, Ok(labels)).Ok?
    ensures |Recommend(questions, userInput, Ok(labels)).value| == k
    ensures forall j :: |questions| <= j < k ==> Recommend(questions, userInput, Ok(labels)).value[j] == questions[|questions| - 1]
    ensures RecommendInRange(questions, userInput, Ok(labels)).value
            == Lookup(questions, labels[..Min(k, |questions|)])
  {
    var n := |questions|;
    FilterKeepsAll(labels, Below(n));
    assert KeepBelow(labels, n) == labels;
    InRangePrefix(labels, k, n);
  }

  /** With the default `top_k = 5` and fewer than five questions, the
      as-written answer always has five entries, the padded ones all the
      last question. */
  lemma DefaultsPadRecommendations(questions: seq<string>, userInput: string, labels: seq<int>)
    requires !IsBlank(userInput) && 0 < |questions| < DefaultTopK
    requires IsLabelRow(labels, DefaultTopK, |questions|)
    ensures Recommend(questions, userInput, Ok(labels)).Ok?
    ensures |Recommend(questions, userInput, Ok(labels)).value| == DefaultTopK
    ensures Recommend(questions, userInput, Ok(labels)).value[DefaultTopK - 1] == questions[|questions| - 1]
    ensures |RecommendInRange(questions, userInput, Ok(labels)).value| == |questions|
  {
    PaddedRecommendations(questions, userInput, labels, DefaultTopK);
    InRangePrefix(labels, DefaultTopK, |questions|);
  }
}

=== FILE: retriever.dfy ===
/**
 `get_top_chunks`: the two input guards, the NaN check, and the selection of
 the `top_k` best-scoring chunks by `scores.argsort()[::-1][:top_k]`. The
 encoder and `cosine_similarity` are external; the score row they produce,
 or the exception they raise, is a parameter. Float scores are abstracted to
 integers plus a NaN case; the order numpy gives to equal scores is left
 open, since its default sort is not stable.
 */
module Retriever {
  import opened Errors
  import opened PyBuiltins

  /** One cosine similarity: an ordered value, or NaN. */
  datatype Score = Finite(value: int) | NaN

  const EmptyQueryMessage := "\U{274C} Query is empty. Please enter a valid question."
  const CountMismatchMessage := "\U{274C} Vectors and chunks count mismatch."
  const NaNMessage := "\U{274C} NaN found in similarity scores."
  const RetrievalPrefix := "\U{274C} Failed to retrieve top chunks: "

  predicate HasNaN(scores: seq<Score>)
  {
    exists i :: 0 <= i < |scores| && scores[i].NaN?
  }

  /** The score row as ordered values, once it is known to hold no NaN. */
  function Values(scores: seq<Score>): (values: seq<int>)
    requires !HasNaN(scores)
    ensures |values| == |scores|
    ensures forall i :: 0 <= i < |scores| ==> scores[i] == Finite(values[i])
  {
    seq(|scores|, i requires 0 <= i < |scores| => scores[i].value)
  }

  predicate Distinct(xs: seq<int>)
  {
    forall i, j :: 0 <= i < j < |xs| ==> xs[i] != xs[j]
  }

  predicate AllIn(xs: seq<int>, n: int)
  {
    forall i :: 0 <= i < |xs| ==> 0 <= xs[i] < n
  }

  /** The scores along `order` never increase. */
  predicate Descending(scores: seq<int>, order: seq<int>)
    requires AllIn(order, |scores|)
  {
    forall i, j :: 0 <= i < j < |order| ==> scores[order[i]] >= scores[order[j]]
  }

  /** `scores.argsort()[::-1]`: every position exactly once, best score
      first; ties may come in any order. */
  predicate IsDescendingOrder(scores: seq<int>, order: seq<int>)
  {
    && |order| == |scores|
    && AllIn(order, |scores|)
    && Distinct(order)
    && (forall p :: 0 <= p < |scores| ==> p in order)
    && Descending(scores, order)
  }

  /** `top` holds `k` distinct positions, best first, and no position left
      out scores higher than one taken. */
  predicate IsTopK(scores: seq<int>, top: seq<int>, k: nat)
  {
    && |top| == k
    && AllIn(top, |scores|)
    && Distinct(top)
    && Descending(scores, top)
    && (forall p, j :: 0 <= p < |scores| && p !in top && 0 <= j < |top| ==> scores[p] <= scores[top[j]])
  }

  /** Every prefix of a descending ordering is a top-k selection. */
  lemma PrefixIsTopK(scores: seq<int>, order: seq<int>, k: nat)
    requires IsDescendingOrder(scores, order)
    requires k <= |order|
    ensures IsTopK(scores, order[..k], k)
  {
    var top := order[..k];
    forall p, j | 0 <= p < |scores| && p !in top && 0 <= j < |top|
      ensures scores[p] <= scores[top[j]]
    {
      assert p in order;
      assert order == top + order[k..];
      assert p in order[k..];
      var i :| 0 <= i < |order| - k && order[k..][i] == p;
      assert order[k + i] == p;
    }
  }

  /** The position in `rest` of a best-scoring entry. */
  method ArgMax(scores: seq<int>, rest: seq<int>) returns (best: nat)
    requires |rest| > 0
    requires AllIn(rest, |scores|)
    ensures best < |rest|
    ensures forall j :: 0 <= j < |rest| ==> scores[rest[j]] <= scores[rest[best]]
  {
    best := 0;
    var i := 1;
    while i < |rest|
      invariant 1 <= i <= |rest|
      invariant best < i
      invariant forall j :: 0 <= j < i ==> scores[rest[j]] <= scores[rest[best]]
    {
      if scores[rest[i]] > scores[rest[best]] {
        best := i;
      }
      i := i + 1;
    }
  }

  /** Every position in `[0, n)` has been placed in `order` or is still in
      `rest`, and none in both. */
  ghost predicate Partition(order: seq<int>, rest: seq<int>, n: int)
  {
    && AllIn(order, n) && AllIn(rest, n)
    && Distinct(order) && Distinct(rest)
    && (forall i, j :: 0 <= i < |order| && 0 <= j < |rest| ==> order[i] != rest[j])
    && (forall p :: 0 <= p < n ==> p in order || p in rest)
  }

  /** Moving `rest[b]` to the end of `order` keeps the partition. */
  lemma MoveKeepsPartition(order: seq<int>, rest: seq<int>, n: int, b: nat)
    requires Partition(order, rest, n)
    requires b < |rest|
    ensures Partition(order + [rest[b]], rest[..b] + rest[b + 1..], n)
  {
  }

  /** `scores.argsort()[::-1]`, by repeated selection of a best remaining
      position. */
  method ArgsortDescending(scores: seq<int>) returns (order: seq<int>)
    ensures IsDescendingOrder(scores, order)
  {
    var n := |scores|;
    order := [];
    var rest := seq(n, i => i);
    forall p | 0 <= p < n
      ensures p in rest
    {
      assert rest[p] == p;
    }
    while |rest| > 0
      invariant |order| + |rest| == n
      invariant Partition(order, rest, n)
      invariant Descending(scores, order)
      invariant forall i, j :: 0 <= i < |order| && 0 <= j < |rest| ==> scores[rest[j]] <= scores[order[i]]
      decreases |rest|
    {
      var b := ArgMax(scores, rest);
      MoveKeepsPartition(order, rest, n, b);
      var rest' := rest[..b] + rest[b + 1..];
      assert forall j :: 0 <= j < |rest'| ==> rest'[j] == rest[if j < b then j else j + 1];
      order := order + [rest[b]];
      rest := rest';
    }
  }

  /** `get_top_chunks(query, model, vectors, chunks, top_k)`. `scored` is the
      row `cosine_similarity` produced for the encoded query against
      `vectors`, or the exception encoding or scoring raised. */
  method GetTopChunks(query: string, vectors: seq<seq<int>>, chunks: seq<string>, topK: int,
                      scored: Result<seq<Score>>)
    returns (r: Result<(seq<string>, seq<int>)>)
    requires scored.Ok? ==> |scored.value| == |vectors|
    ensures IsBlank(query) ==> r == Err(ValueError(EmptyQueryMessage))
    ensures !IsBlank(query) && |vectors| != |chunks| ==> r == Err(ValueError(CountMismatchMessage))
    ensures !IsBlank(query) && |vectors| == |chunks| && scored.Err?
            ==> r == Err(Exception(RetrievalPrefix + scored.error.msg))
    ensures !IsBlank(query) && |vectors| == |chunks| && scored.Ok? && HasNaN(scored.value)
            ==> r == Err(Exception(RetrievalPrefix + NaNMessage))
    ensures r.Ok? <==> !IsBlank(query) && |vectors| == |chunks| && scored.Ok? && !HasNaN(scored.value)
    ensures r.Ok? ==> !HasNaN(scored.value) && IsTopK(Values(scored.value), r.value.1, SliceLength(|chunks|, topK))
    ensures r.Ok? ==> exists order :: IsDescendingOrder(Values(scored.value), order)
                                      && r.value.1 == order[..SliceLength(|chunks|, topK)]
    ensures r.Ok? ==> |r.value.0| == |r.value.1|
                      && forall j :: 0 <= j < |r.value.1| ==> 0 <= r.value.1[j] < |chunks| && r.value.0[j] == chunks[r.value.1[j]]
  {
    if IsBlank(query) {
      return Err(ValueError(EmptyQueryMessage));
    }
    if |vectors| != |chunks| {
      return Err(ValueError(CountMismatchMessage));
    }
    if scored.Err? {
      return Err(Exception(RetrievalPrefix + scored.error.msg));
    }
    if HasNaN(scored.value) {
      return Err(Exception(RetrievalPrefix + NaNMessage));
    }
    var scores := Values(scored.value);
    var order := ArgsortDescending(scores);
    var k := SliceLength(|chunks|, topK);
    var top := order[..k];
    PrefixIsTopK(scores, order, k);
    var topChunks := seq(k, j requires 0 <= j < k => chunks[top[j]]);
    r := Ok((topChunks, top));
  }
}
